=== FILE: README.md ===
# SteamKM self-updater, modelled in Dafny

SteamKM is a desktop key manager whose updater module checks GitHub for a
newer release, lets the user pick a release in a dialog, streams the
`SteamKM.exe` asset next to the running executable while reporting progress,
and swaps it in place of the running binary (keeping one `.bak` copy).

This project models the decision and state-transformation rules of that
updater as pure functions over immutable data, with the network, the version
library and the widgets abstracted away:

- `Versions` (versions.dfy) — `check_for_updates` and `UpdateCheckThread.run`.
  The version library is a pair of parameters: `parse: string -> Option<K>`
  (`None` for an invalid version) and a strict order `lt` on keys. The
  "update available" equivalence needs only that `lt` is irreflexive.
- `FileSystem` (filesystem.dfy) — the filesystem as a map from path to bytes,
  the `.new`/`.bak` paths and the three-step swap (remove stale `.bak`, rename
  the executable to `.bak`, rename `.new` to the executable).
- `Progress` (progress.dfy) — the streaming loop: the bytes written to `.new`
  and the progress reports, as a function with its properties and as the loop
  itself proved equal to it.
- `Download` (download.dfy) — `download_update` as one function from the
  release response, the executable path, the streamed chunks and the
  filesystem to a `Run`: the progress trace, the resulting filesystem and the
  outcome. Errors keep their side effects (a broken stream leaves the partial
  `.new`; a failed rename leaves the stale `.bak` removed). Also
  `DownloadThread.run`'s choice of signal.
- `Labels` (labels.dfy) — the " (latest)" labelling of the release list and
  its removal by Python's `str.replace` and `str.strip` (with Python's
  whitespace set).
- `Dialog` (dialog.dfy) — `UpdateDialog`'s visibility and enabled flags, its
  selector and worker reference, the slots that change them, and an invariant
  of every reachable state.
- `Optional` (optional.dfy) — `Option` and `Result`.

`download_update` reports `(0, size)` before the first chunk, so ten non-empty
chunks give eleven reports (`Download.TenChunkDownload`); installation fails
only when a rename finds no file.

## Model

| member | source | states |
|---|---|---|
| Versions.FetchedTag | SteamKM_Updater.py:25 | the compared tag is the record's `tag_name`, or "0.0.0" when absent |
| Versions.CheckForUpdates | SteamKM_Updater.py:20-31 | the result is the fetched tag when it parses and orders strictly above the parsed running build; after a request failure, an invalid version or a tag not newer, it is the running build |
| Versions.UpdateAvailable | SteamKM_Updater.py:95-97 | for an irreflexive order, the thread reports "available" exactly when the request succeeded and the latest tag is newer than the running build |
| Versions.CheckNeverDowngrades | SteamKM_Updater.py:27 | under a strict total order, when the running build parses the check's result parses and is never below it |
| FileSystem.NewPath | SteamKM_Updater.py:44 | the staging path differs from the executable path |
| FileSystem.BakPath | SteamKM_Updater.py:58 | the backup path differs from both the executable and the staging path |
| FileSystem.RemoveIfExists | SteamKM_Updater.py:59-60 | afterwards the backup path is absent and every other path is unchanged |
| FileSystem.Rename | SteamKM_Updater.py:61-62 | a missing source is an error that changes nothing; otherwise the target holds the source's bytes, the source is gone unless it is the target, and other paths are unchanged |
| FileSystem.Install | SteamKM_Updater.py:58-62 | the swap succeeds exactly when executable and staging file exist; then the executable path holds the staged bytes and `.new` is gone; the backup holds the old binary whenever the executable existed; a failed second rename leaves both the executable path and `.new` empty; nothing outside the three paths changes |
| FileSystem.InstallTwiceKeepsOneBackup | SteamKM_Updater.py:58-62 | a second install replaces the backup with the binary the first install put in place |
| Progress.Reports | SteamKM_Updater.py:52-57 | one report per non-empty chunk, all with the reported total, strictly increasing, each the running byte count right after a non-empty chunk, the last equal to all bytes received |
| Progress.ProgressTrace | SteamKM_Updater.py:48-57 | the trace starts with (0, size), has one more report per non-empty chunk, keeps the total constant, strictly increases, every later report is the running byte count right after some non-empty chunk, and it ends at the number of bytes received |
| Progress.StreamBody | SteamKM_Updater.py:49-57 | the loop as written produces exactly `ProgressTrace` and writes exactly the concatenated chunks |
| Progress.NonEmptyAll | SteamKM_Updater.py:53-57 | with no empty chunk there is one report per chunk |
| Download.AssetsOf | SteamKM_Updater.py:39 | the assets are the release record's asset list, or none when the record has no list |
| Download.SizeOf | SteamKM_Updater.py:45 | the size is the asset's announced size, or 0 when it announces none |
| Download.FirstExe | SteamKM_Updater.py:40-41 | the result is the first asset named `SteamKM.exe`, and none only when no asset has that name |
| Download.ResolveSize | SteamKM_Updater.py:37-66 | a failed release request, no matching asset, and a first match with size 0 (even if a later asset matches) are each rejected, each exactly in its case; otherwise the result is the announced size of the first asset named `SteamKM.exe`, which is non-zero |
| Download.DownloadUpdate | SteamKM_Updater.py:33-72 | a rejection before streaming reports nothing and leaves the filesystem unchanged (no `.new`); otherwise the trace is `ProgressTrace`; a broken stream leaves the partial `.new`; installation happens exactly when the stream completed and the executable exists, after which `.bak` holds the old binary, the executable the received bytes, `.new` is gone and no other path changed; a completed stream fails to install exactly when the executable is missing |
| Download.ZeroSizeFirstMatchAborts | SteamKM_Updater.py:40-47 | a zero-size first match aborts with nothing reported and nothing written, whatever assets follow |
| Download.ReportedSizeNotChecked | SteamKM_Updater.py:45-62 | a release announcing 10 bytes whose stream yields 3 is installed with those 3 bytes and a last report of 3 of 10 |
| Download.TenChunkDownload | SteamKM_Updater.py:48-62 | a 1,000-byte asset in ten 100-byte chunks gives eleven reports, the last 1000 of 1000, and is installed |
| Download.NoAssetMessage | SteamKM_Updater.py:65-66 | the corrected error text ends with the requested tag |
| Download.NoAssetMessageNamesTag | SteamKM_Updater.py:65-66 | different requested tags give different corrected error texts |
| Download.ErrorText | SteamKM_Updater.py:46-72 | as written, the error signal's text is the literal no-asset text, the fixed file-size text, or the underlying exception's text |
| Download.ErrorTextIgnoresTag | SteamKM_Updater.py:66 | as written, the texts `download_update` raises itself (no matching asset, unknown size) never depend on the tag or on any cause; the other errors pass their cause's text through unchanged |
| Download.SignalRecoversOutcome | SteamKM_Updater.py:111-115 | two runs that emit the same signal had the same outcome, and every successful run emits the same signal: the dialog can tell each outcome from what the thread reports |
| Download.IntendedErrorText | SteamKM_Updater.py:65-66 | with the message corrected, the no-asset text ends with the requested tag; every other text is as written |
| Download.ThreadSignal | SteamKM_Updater.py:109-115 | the thread signals success exactly when the update was installed, never `finished(False)`, and otherwise the error with its as-written text |
| Labels.Strip | SteamKM_Updater.py:230 | stripping removes only whitespace, and only from the two ends: the result is a slice of the input preceded and followed only by whitespace, with no whitespace at either end |
| Labels.SelectedVersion | SteamKM_Updater.py:230 | the selected version is the entry with "(latest)" removed and then only surrounding whitespace removed: a slice of it preceded and followed only by whitespace, with none at either end |
| Labels.LabelVersions | SteamKM_Updater.py:210-213 | entries keep release order, tags equal to the first get " (latest)", the rest are verbatim, and each plain tag is recovered from its entry |
| Labels.RemoveMarker | SteamKM_Updater.py:230 | removing "(latest)" never lengthens the entry |
| Labels.RemoveMarkerAbsent | SteamKM_Updater.py:230 | removing "(latest)" from a tag that does not contain it changes nothing |
| Labels.RemoveMarkerAfter | SteamKM_Updater.py:230 | removal keeps a marker-free prefix, drops the marker that follows it and goes on with the rest, so every occurrence is removed, not only the first; with `RemoveMarkerAbsent` this fixes the result for every entry |
| Labels.RemoveMarkerSuffix | SteamKM_Updater.py:230 | removing "(latest)" from a labelled tag leaves the tag and one space |
| Labels.SelectedVersionOfLabel | SteamKM_Updater.py:230 | for a tag without "(latest)" and without surrounding whitespace, the selected version of its entry, labelled or not, is the tag |
| Dialog.Init | SteamKM_Updater.py:154-179 | the built dialog shows only "Check", with an empty selector at index -1, the download button enabled, no worker, no chosen version, and the running build recorded |
| Dialog.OnVersionSelected | SteamKM_Updater.py:229-234 | "Download" is enabled exactly when the selected entry, marker removed and stripped, differs from the running build; nothing else changes |
| Dialog.EnabledForLabel | SteamKM_Updater.py:229-234 | for an entry labelling a plain tag, "Download" is enabled exactly when that tag is not the running build |
| Dialog.ClearSelector | SteamKM_Updater.py:211 | clearing empties the selector and, when it had a current entry, re-evaluates "Download" for the empty selection |
| Dialog.FillSelector | SteamKM_Updater.py:212-213 | refilling makes the first entry current and "Download" follows it |
| Dialog.ShowReleases | SteamKM_Updater.py:211-216 | for any entry list, the selector holds exactly those entries with the first current, the selector and "Download" are shown, other flags, worker and running build are kept, and "Download" follows the current entry |
| Dialog.FetchReleases | SteamKM_Updater.py:204-220 | a failed request changes nothing; otherwise the selector holds the labelled tags with the first current, the selector and "Download" are shown, and "Download" follows the current entry |
| Dialog.ChooseVersion | SteamKM_Updater.py:165 | picking a new entry makes it current and re-evaluates "Download" for it, changing no other flag, the worker or the running build; picking the current one changes nothing |
| Dialog.StartDownload | SteamKM_Updater.py:236-254 | a non-empty selection hides "Check", selector and "Download", shows "Cancel" and the bar and starts a worker for the selected tag; an empty selection changes nothing |
| Dialog.CancelDownload | SteamKM_Updater.py:256-268 | with a running worker, restores "Check", selector and "Download", hides "Cancel" and the bar and drops the worker; otherwise nothing changes |
| Dialog.DownloadFinished | SteamKM_Updater.py:276-283 | hides "Cancel" and the bar, shows "Download" and leaves "Check" and the selector as they were |
| Dialog.DownloadError | SteamKM_Updater.py:285-292 | restores "Check", selector and "Download" and hides "Cancel" and the bar, keeping the running build and the target tag |
| Dialog.StepPreserves | SteamKM_Updater.py:229-292 | every allowed event keeps the dialog consistent |
| Dialog.ReachableConsistent | SteamKM_Updater.py:154-292 | for a non-empty running build, in every reachable state "Cancel" and the bar show together exactly while a worker runs, "Check", selector and "Download" are then hidden, the selector index is valid, and "Download" is enabled exactly when the selection differs from the running build |
| Dialog.FinishKeepsCheckHidden | SteamKM_Updater.py:276-279 | after a successful download "Check" and the selector stay hidden and only "Download" returns |
| Dialog.UpgradeScenario | SteamKM_Updater.py:204-283 | opening the dialog, clicking "Download" on the newest plain tag and finishing targets that tag and leaves only "Download" shown |

## Left out

- HTTP: the GitHub URLs, the optional token and its headers, `raise_for_status` and JSON decoding. Responses are inputs (`LatestResponse`, `ReleaseResponse`, `Body`, the release list of `FetchReleases`); a download URL is represented by the chunks it yields.
- `packaging.version.parse` and its ordering: foreign code, passed in as `parse` and `lt`.
- `DownloadThread.update_progress`: wall-clock speed and ETA in floating point (speed 0 when no time has elapsed or nothing was downloaded, ETA 0 when the speed is 0).
- Thread start, `terminate`, `wait` and signal delivery: concurrency. A cancelled download's partial `.new` is therefore not modelled, and a worker is taken to have stopped when it signals.
- Widget layout in `setup_ui`, the status label's texts, the progress bar's range and MB formatting in `UpdateDialog.update_progress`, message boxes, `fetch_changelog` and logging: presentation only.
- `UpdateManager`: it only starts the check and shows a label when an update is available.
- `SteamKM_Config.py`: a JSON file read and write with no logic of its own.
- Filesystem permissions, directories and `os.remove` failures: the map has only regular files, so the install step fails only when a rename finds no file. POSIX and Windows rename agree here because the target never exists at either rename.
- Malformed release data in `download_update` (a non-numeric or null `size`, a null `assets`, a non-dictionary body or asset): the `except Exception` handler re-raises it and `DownloadThread.run` turns it into an error signal carrying the exception's text; the model has no `DownloadError` variant for these, as their text comes from the Python runtime.
- Uncaught exceptions in `check_for_updates` (a non-dictionary JSON body, a non-string `tag_name`) and in `fetch_releases` (a non-list body, a release without `tag_name`): they escape the function, so the model's inputs exclude them.
- Qt's 32-bit `int` in the progress signal: counts are unbounded integers.
- Labels.RemoveMarker: its contract only bounds the length. The two laws that fix its result for every entry are the lemmas `RemoveMarkerAbsent` and `RemoveMarkerAfter`; stated as postconditions of the function they would be instantiated at every use of it and make the proofs about labels too costly.
- Download.ErrorTextIgnoresTag: the cause of a request, stream or install error is a parameter, so the model does not promise that its text is free of the tag; a request exception's text typically includes the URL built from the tag (SteamKM_Updater.py:36), and that text reaches the error signal unchanged (SteamKM_Updater.py:115).
- Versions.CheckForUpdates: the error is shown in a message box, not returned; the function returns only the version.

## Findings

| source | as written | input that shows it | evidently intended | confidence | as-written member | corrected member |
|---|---|---|---|---|---|---|
| SteamKM_Updater.py:66 | the error text has no `f` prefix, so it reads `{latest_version}` literally | any release without a `SteamKM.exe` asset, e.g. tags "1.3.0" and "1.2.0" give the same text | the text names the requested tag, as the log line above it does | high, not executed | Download.ErrorTextIgnoresTag | Download.IntendedErrorText |

=== FILE: dialog.dfy ===
/**
  The update dialog's buttons, version selector and progress bar as a record of
  flags, and the slots that change them: fetching the release list, selecting a
  version, starting, cancelling, finishing and failing a download.
 */
module Dialog {
  import opened Optional
  import opened Labels

  /** The dialog's reference to its download thread. */
  datatype Worker =
    | NoWorker   // none started, or dropped by a cancel
    | Running    // started and not yet finished
    | Stopped    // still referenced, but its `run` has returned

  datatype State = State(
    current: string,          // the running build
    checkVisible: bool,       // "Check" button
    comboVisible: bool,       // version selector
    downloadVisible: bool,    // "Download" button
    downloadEnabled: bool,
    cancelVisible: bool,      // "Cancel" button
    progressVisible: bool,    // progress bar
    items: seq<string>,       // selector entries
    index: int,               // selector's current index, -1 when none
    worker: Worker,
    target: Option<string>)   // the version last chosen for download

  /** The dialog as built: only "Check" shows, and the buttons start enabled. */
  function Init(current: string): (d: State)
    ensures d.checkVisible && !d.comboVisible && !d.downloadVisible && !d.cancelVisible && !d.progressVisible
    ensures d.items == [] && d.worker == NoWorker
    ensures d.current == current && d.index == -1 && d.downloadEnabled && d.target == None
  {
    State(current, true, false, false, true, false, false, [], -1, NoWorker, None)
  }

  /** `itemText(index)`: the entry, or "" when the index names none. */
  function ItemText(items: seq<string>, index: int): (t: string)
    ensures 0 <= index < |items| ==> t == items[index]
    ensures !(0 <= index < |items|) ==> t == ""
  {
    if 0 <= index < |items| then items[index] else ""
  }

  function CurrentText(d: State): string {
    ItemText(d.items, d.index)
  }

  /**
    `on_version_selected`: "Download" is enabled exactly when the selected
    entry, with the marker removed and stripped, differs from the running
    build; nothing else changes.  For an entry labelling a plain tag this
    compares the tag itself.
   */
  function OnVersionSelected(d: State, index: int): (r: State)
    ensures r.downloadEnabled <==> SelectedVersion(ItemText(d.items, index)) != d.current
    ensures r == d.(downloadEnabled := r.downloadEnabled)
  {
    d.(downloadEnabled := SelectedVersion(ItemText(d.items, index)) != d.current)
  }

  /** For an entry labelling a plain tag, "Download" is enabled exactly when that tag is not the running build. */
  lemma EnabledForLabel(d: State, versions: seq<string>, index: int)
    requires d.items == LabelVersions(versions) && 0 <= index < |versions| && PlainTag(versions[index])
    ensures OnVersionSelected(d, index).downloadEnabled <==> versions[index] != d.current
  {
  }

  /**
    `version_combo.clear()`: the selector empties; when it had a current entry
    it reports index -1, so "Download" is then enabled unless the running build
    is the empty string.
   */
  function ClearSelector(d: State): (r: State)
    ensures r.items == [] && r.index == -1
    ensures d.index != -1 ==> (r.downloadEnabled <==> SelectedVersion("") != d.current)
    ensures d.index == -1 ==> r.downloadEnabled == d.downloadEnabled
    ensures r == d.(items := [], index := -1, downloadEnabled := r.downloadEnabled)
  {
    var emptied := d.(items := [], index := -1);
    if d.index != -1 then OnVersionSelected(emptied, -1) else emptied
  }

  /**
    Adding `labels` one by one to an empty selector: the first entry becomes
    current and is reported, so "Download" follows it.
   */
  function FillSelector(d: State, labels: seq<string>): (r: State)
    requires d.items == [] && d.index == -1
    ensures r.items == labels
    ensures r.index == (if |labels| > 0 then 0 else -1)
    ensures |labels| > 0 ==> (r.downloadEnabled <==> SelectedVersion(labels[0]) != d.current)
    ensures |labels| == 0 ==> r == d
    ensures r == d.(items := labels, index := r.index, downloadEnabled := r.downloadEnabled)
  {
    if |labels| > 0 then OnVersionSelected(d.(items := labels, index := 0), 0) else d
  }

  /**
    The part of `fetch_releases` after a successful request, for any list of
    entries: the selector is cleared and refilled, the first entry becoming
    current, and the selector and "Download" are shown.
   */
  function ShowReleases(d: State, labels: seq<string>): (r: State)
    ensures r.items == labels
    ensures r.index == (if |labels| > 0 then 0 else -1)
    ensures r.comboVisible && r.downloadVisible
    ensures r.checkVisible == d.checkVisible
    ensures r.cancelVisible == d.cancelVisible && r.progressVisible == d.progressVisible
    ensures r.worker == d.worker && r.target == d.target && r.current == d.current
    ensures |labels| > 0 || d.index != -1 ==>
              (r.downloadEnabled <==> SelectedVersion(CurrentText(r)) != d.current)
    ensures |labels| == 0 && d.index == -1 ==> r.downloadEnabled == d.downloadEnabled
  {
    var cleared := ClearSelector(d);
    var filled := FillSelector(cleared, labels);
    assert |labels| > 0 ==> CurrentText(filled) == labels[0];
    assert |labels| == 0 ==> CurrentText(filled) == "" && filled == cleared;
    filled.(comboVisible := true, downloadVisible := true)
  }

  /**
    `fetch_releases`.  A failed request leaves every flag as it was.  Otherwise
    the selector is cleared, refilled with the labelled tags in release order,
    and the selector and "Download" are shown.
   */
  function FetchReleases(d: State, releases: Option<seq<string>>): (r: State)
    ensures releases.None? ==> r == d
    ensures releases.Some? ==>
              && r.items == LabelVersions(releases.value)
              && r.index == (if |releases.value| > 0 then 0 else -1)
              && r.comboVisible && r.downloadVisible
              && r.checkVisible == d.checkVisible
              && r.cancelVisible == d.cancelVisible && r.progressVisible == d.progressVisible
              && r.worker == d.worker && r.target == d.target && r.current == d.current
    ensures releases.Some? && (|releases.value| > 0 || d.index != -1) ==>
              (r.downloadEnabled <==> SelectedVersion(CurrentText(r)) != d.current)
    ensures releases.Some? && |releases.value| == 0 && d.index == -1 ==>
              r.downloadEnabled == d.downloadEnabled
  {
    match releases
    case None => d
    case Some(versions) =>
      var labels := LabelVersions(versions);
      assert |labels| == |versions|;
      ShowReleases(d, labels)
  }

  /** The user picks entry `i`; the selector reports a change only when `i` is new. */
  function ChooseVersion(d: State, i: int): (r: State)
    ensures r.index == i && r.items == d.items
    ensures r == d.(index := i, downloadEnabled := r.downloadEnabled)
    ensures i != d.index ==> (r.downloadEnabled <==> SelectedVersion(CurrentText(r)) != d.current)
    ensures i == d.index ==> r == d
  {
    if i == d.index then d else OnVersionSelected(d.(index := i), i)
  }

  /**
    `download_update` (the slot): with a non-empty selection it hides "Check",
    the selector and "Download", shows "Cancel" and the progress bar and starts
    a worker for the selected tag; an empty selection changes nothing.
   */
  function StartDownload(d: State): (r: State)
    ensures SelectedVersion(CurrentText(d)) == "" ==> r == d
    ensures SelectedVersion(CurrentText(d)) != "" ==>
              && !r.checkVisible && !r.comboVisible && !r.downloadVisible
              && r.cancelVisible && r.progressVisible
              && r.worker == Running && r.target == Some(SelectedVersion(CurrentText(d)))
              && r.current == d.current
              && r.items == d.items && r.index == d.index && r.downloadEnabled == d.downloadEnabled
  {
    var selected := SelectedVersion(CurrentText(d));
    if selected != "" then
      d.(checkVisible := false, comboVisible := false, downloadVisible := false,
         cancelVisible := true, progressVisible := true,
         worker := Running, target := Some(selected))
    else d
  }

  /**
    `cancel_download`: with a running worker it drops the worker, shows "Check",
    the selector and "Download" and hides "Cancel" and the progress bar;
    otherwise nothing changes.
   */
  function CancelDownload(d: State): (r: State)
    ensures d.worker != Running ==> r == d
    ensures d.worker == Running ==>
              && r.checkVisible && r.comboVisible && r.downloadVisible
              && !r.cancelVisible && !r.progressVisible
              && r.worker == NoWorker
              && r.current == d.current && r.target == d.target
              && r.items == d.items && r.index == d.index && r.downloadEnabled == d.downloadEnabled
  {
    if d.worker == Running then
      d.(worker := NoWorker, checkVisible := true, comboVisible := true,
         progressVisible := false, cancelVisible := false, downloadVisible := true)
    else d
  }

  /**
    `download_finished`: hides the progress bar and "Cancel" and shows
    "Download"; "Check" and the selector keep their visibility.  The flag
    `success` only chooses the message shown.
   */
  function DownloadFinished(d: State, success: bool): (r: State)
    ensures !r.progressVisible && !r.cancelVisible && r.downloadVisible
    ensures r.checkVisible == d.checkVisible && r.comboVisible == d.comboVisible
    ensures r.worker == Stopped
    ensures r.current == d.current && r.target == d.target
    ensures r.items == d.items && r.index == d.index && r.downloadEnabled == d.downloadEnabled
  {
    d.(progressVisible := false, cancelVisible := false, downloadVisible := true, worker := Stopped)
  }

  /** `download_error`: restores "Check", the selector and "Download" and hides "Cancel" and the progress bar. */
  function DownloadError(d: State): (r: State)
    ensures r.checkVisible && r.comboVisible && r.downloadVisible
    ensures !r.cancelVisible && !r.progressVisible
    ensures r.worker == Stopped
    ensures r.current == d.current && r.target == d.target
    ensures r.items == d.items && r.index == d.index && r.downloadEnabled == d.downloadEnabled
  {
    d.(checkVisible := true, comboVisible := true, downloadVisible := true,
       progressVisible := false, cancelVisible := false, worker := Stopped)
  }

  /** What can happen to the dialog: a user action or a signal from the worker. */
  datatype Event =
    | Fetch(releases: Option<seq<string>>)   // on open, or "Check" clicked
    | Choose(i: int)                         // an entry picked in the selector
    | ClickDownload
    | ClickCancel
    | WorkerFinished(success: bool)
    | WorkerError

  /** Buttons react only when shown (and "Download" when enabled); signals come only from a running worker. */
  predicate Allowed(d: State, e: Event) {
    match e
    case Fetch(_) => d.checkVisible
    case Choose(i) => d.comboVisible && 0 <= i < |d.items|
    case ClickDownload => d.downloadVisible && d.downloadEnabled
    case ClickCancel => d.cancelVisible
    case WorkerFinished(_) => d.worker == Running
    case WorkerError => d.worker == Running
  }

  /**
    What holds in every state the dialog can reach: "Cancel" and the progress
    bar show together, exactly while a worker runs, and then "Check", the
    selector and "Download" are hidden; the selector's index is valid; and
    "Download" is enabled exactly when the selection differs from the running build.
   */
  ghost predicate Consistent(d: State) {
    && d.cancelVisible == d.progressVisible
    && (d.cancelVisible <==> d.worker == Running)
    && (d.cancelVisible ==> !d.checkVisible && !d.comboVisible && !d.downloadVisible)
    && ((d.items == [] && d.index == -1) || 0 <= d.index < |d.items|)
    && (d.downloadEnabled <==> SelectedVersion(CurrentText(d)) != d.current)
  }

  /** One event: its slot when allowed, no change otherwise. */
  function Step(d: State, e: Event): State {
    if !Allowed(d, e) then d
    else match e
      case Fetch(releases) => FetchReleases(d, releases)
      case Choose(i) => ChooseVersion(d, i)
      case ClickDownload => StartDownload(d)
      case ClickCancel => CancelDownload(d)
      case WorkerFinished(success) => DownloadFinished(d, success)
      case WorkerError => DownloadError(d)
  }

  function Replay(d: State, events: seq<Event>): State
    decreases |events|
  {
    if |events| == 0 then d else Replay(Step(d, events[0]), events[1..])
  }

  /** Every state reached from the freshly built dialog is consistent. */
  lemma {:induction false} ReachableConsistent(current: string, events: seq<Event>)
    requires current != ""
    ensures Consistent(Replay(Init(current), events))
  {
    ReplayPreserves(Init(current), events);
  }

  lemma {:induction false} ReplayPreserves(d: State, events: seq<Event>)
    requires Consistent(d)
    ensures Consistent(Replay(d, events))
    decreases |events|
  {
    if |events| > 0 {
      StepPreserves(d, events[0]);
      ReplayPreserves(Step(d, events[0]), events[1..]);
    }
  }

  /** Every allowed event keeps the dialog consistent. */
  lemma StepPreserves(d: State, e: Event)
    requires Consistent(d)
    ensures Consistent(Step(d, e))
  {
    if Allowed(d, e) {
      match e
      case Fetch(releases) => FetchPreserves(d, releases);
      case Choose(i) => ChoosePreserves(d, i);
      case ClickDownload => StartPreserves(d);
      case ClickCancel => CancelPreserves(d);
      case WorkerFinished(success) => FinishPreserves(d, success);
      case WorkerError => ErrorPreserves(d);
    }
  }

  lemma FetchPreserves(d: State, releases: Option<seq<string>>)
    requires Consistent(d) && d.checkVisible
    ensures Consistent(FetchReleases(d, releases))
  {
    if releases.Some? {
      ShowPreserves(d, LabelVersions(releases.value));
    }
  }

  lemma ShowPreserves(d: State, labels: seq<string>)
    requires Consistent(d) && d.checkVisible
    ensures Consistent(ShowReleases(d, labels))
  {
    var r := ShowReleases(d, labels);
    if |labels| > 0 {
      assert CurrentText(r) == r.items[0];
    } else {
      assert CurrentText(r) == "";
    }
  }

  lemma ChoosePreserves(d: State, i: int)
    requires Consistent(d) && 0 <= i < |d.items|
    ensures Consistent(ChooseVersion(d, i))
  {
  }

  lemma StartPreserves(d: State)
    requires Consistent(d) && d.downloadVisible
    ensures Consistent(StartDownload(d))
  {
  }

  lemma CancelPreserves(d: State)
    requires Consistent(d)
    ensures Consistent(CancelDownload(d))
  {
  }

  lemma FinishPreserves(d: State, success: bool)
    requires Consistent(d) && d.worker == Running
    ensures Consistent(DownloadFinished(d, success))
  {
  }

  lemma ErrorPreserves(d: State)
    requires Consistent(d) && d.worker == Running
    ensures Consistent(DownloadError(d))
  {
  }

  /**
    After a successful download "Check" and the selector stay hidden, as they
    were while the worker ran; only "Download" comes back.
   */
  lemma FinishKeepsCheckHidden(d: State, success: bool)
    requires Consistent(d) && d.worker == Running
    ensures var r := Step(d, WorkerFinished(success));
            !r.checkVisible && !r.comboVisible && r.downloadVisible && !r.cancelVisible
  {
    assert Step(d, WorkerFinished(success)) == DownloadFinished(d, success);
  }

  /**
    The upgrade path: with releases whose newest tag is plain, non-empty and not
    the running build, opening the dialog makes that tag's entry current and
    enables "Download"; clicking it targets that tag; after the worker succeeds
    only "Download" is back on screen.
   */
  lemma UpgradeScenario(current: string, versions: seq<string>)
    requires |versions| > 0 && PlainTag(versions[0]) && versions[0] != "" && versions[0] != current
    ensures var d := Replay(Init(current), [Fetch(Some(versions)), ClickDownload, WorkerFinished(true)]);
            && d.target == Some(versions[0])
            && d.worker == Stopped
            && d.downloadVisible && !d.checkVisible && !d.comboVisible && !d.cancelVisible && !d.progressVisible
  {
    var d1 := Step(Init(current), Fetch(Some(versions)));
    UpgradeFetched(current, versions);
    var d2 := Step(d1, ClickDownload);
    assert d2 == StartDownload(d1);
    ReplayThree(Init(current), Fetch(Some(versions)), ClickDownload, WorkerFinished(true));
    assert Step(d2, WorkerFinished(true)) == DownloadFinished(d2, true);
  }

  lemma ReplayThree(d: State, a: Event, b: Event, c: Event)
    ensures Replay(d, [a, b, c]) == Step(Step(Step(d, a), b), c)
  {
    assert [a, b, c][1..] == [b, c] && [b, c][1..] == [c] && [c][1..] == [];
    assert Replay(d, [a, b, c]) == Replay(Step(d, a), [b, c]);
    assert Replay(Step(d, a), [b, c]) == Replay(Step(Step(d, a), b), [c]);
    assert Replay(Step(Step(d, a), b), [c]) == Replay(Step(Step(Step(d, a), b), c), []);
  }

  /** The first step of the upgrade path: the newest tag's entry is current and "Download" enabled. */
  lemma UpgradeFetched(current: string, versions: seq<string>)
    requires |versions| > 0 && PlainTag(versions[0]) && versions[0] != current
    ensures var d := Step(Init(current), Fetch(Some(versions)));
            && d.downloadVisible && d.downloadEnabled && !d.cancelVisible
            && SelectedVersion(CurrentText(d)) == versions[0]
  {
    var d0 := Init(current);
    var d := Step(d0, Fetch(Some(versions)));
    assert d == FetchReleases(d0, Some(versions));
    assert CurrentText(d) == LabelVersions(versions)[0];
  }
}

=== FILE: download.dfy ===
/**
  `download_update`: find the release asset for the executable, stream it into
  the staging file while reporting progress, then install it.  Also the way
  `DownloadThread.run` turns that outcome into a signal for the dialog.

  The HTTP responses are inputs: the release record's asset list and the
  chunks the download stream yields.
 */
module Download {
  import opened Optional
  import opened FileSystem
  import opened Progress

  /** File name of the asset that carries the Windows executable. */
  const ExeName: string := "SteamKM.exe"

  /** An entry of the release's asset list; each field may be absent from the record. */
  datatype Asset = Asset(name: Option<string>, size: Option<int>)

  /** What the request for the tagged release produced. */
  datatype ReleaseResponse =
    | ReleaseRequestFailed                 // transport error or an error HTTP status
    | ReleaseFetched(assets: Option<seq<Asset>>)

  /** The chunks the asset download yields, and whether the stream then broke. */
  datatype Body = Body(chunks: seq<Bytes>, broken: bool)

  datatype DownloadError =
    | ReleaseUnavailable   // the release request failed
    | NoMatchingAsset      // no asset is named after the executable
    | UnknownFileSize      // the chosen asset reports size 0 (or none)
    | StreamFailed         // the asset download failed, before or during streaming
    | InstallFailed        // a rename of the install step found no file

  datatype Outcome = Installed | Failed(error: DownloadError)

  /** Everything one call leaves behind: the progress reports, the filesystem and the outcome. */
  datatype Run = Run(progress: seq<Report>, fs: Fs, outcome: Outcome)

  /** The asset list, empty when the record has none. */
  function AssetsOf(release: ReleaseResponse): (assets: seq<Asset>)
    requires release.ReleaseFetched?
    ensures release.assets.None? ==> assets == []
    ensures release.assets.Some? ==> assets == release.assets.value
  {
    release.assets.GetOr([])
  }

  predicate IsExe(a: Asset) {
    a.name == Some(ExeName)
  }

  /** The reported size, 0 when the record has none. */
  function SizeOf(a: Asset): (n: int)
    ensures a.size.None? ==> n == 0
    ensures a.size.Some? ==> n == a.size.value
  {
    a.size.GetOr(0)
  }

  /** Asset `i` is the executable asset and no earlier one is. */
  ghost predicate IsFirstExe(assets: seq<Asset>, i: int) {
    0 <= i < |assets| && IsExe(assets[i]) && forall j :: 0 <= j < i ==> !IsExe(assets[j])
  }

  /** The position of the first executable asset, if any. */
  function FirstExe(assets: seq<Asset>): (r: Option<nat>)
    ensures r.Some? ==> IsFirstExe(assets, r.value)
    ensures r.None? <==> forall j :: 0 <= j < |assets| ==> !IsExe(assets[j])
  {
    if |assets| == 0 then None
    else if IsExe(assets[0]) then Some(0)
    else match FirstExe(assets[1..])
      case None => None
      case Some(i) => Some(i + 1)
  }

  /** At most one position is the first executable asset. */
  lemma FirstExeUnique(assets: seq<Asset>, i: int, j: int)
    requires IsFirstExe(assets, i) && IsFirstExe(assets, j)
    ensures i == j
  {
  }

  /**
    The checks made before anything is written: the release must be fetched,
    the first executable asset is the one used (a zero size aborts the search
    even if a later asset matches), and its reported size must not be 0.
   */
  function ResolveSize(release: ReleaseResponse): (r: Result<int, DownloadError>)
    ensures r == Err(ReleaseUnavailable) <==> release.ReleaseRequestFailed?
    ensures r == Err(NoMatchingAsset) <==>
              release.ReleaseFetched? && forall j :: 0 <= j < |AssetsOf(release)| ==> !IsExe(AssetsOf(release)[j])
    ensures r == Err(UnknownFileSize) <==>
              release.ReleaseFetched? && exists i :: IsFirstExe(AssetsOf(release), i) && SizeOf(AssetsOf(release)[i]) == 0
    ensures r.Ok? <==>
              release.ReleaseFetched? && exists i :: IsFirstExe(AssetsOf(release), i) && SizeOf(AssetsOf(release)[i]) != 0
    ensures r.Ok? ==> r.value != 0
    ensures r.Ok? ==> exists i :: IsFirstExe(AssetsOf(release), i) && r.value == SizeOf(AssetsOf(release)[i])
    ensures r.Ok? || r.error in {ReleaseUnavailable, NoMatchingAsset, UnknownFileSize}
  {
    match release
    case ReleaseRequestFailed => Err(ReleaseUnavailable)
    case ReleaseFetched(_) =>
      var assets := AssetsOf(release);
      match FirstExe(assets)
      case None => Err(NoMatchingAsset)
      case Some(i) =>
        var size := SizeOf(assets[i]);
        if size == 0 then Err(UnknownFileSize) else Ok(size)
  }

  /**
    `download_update` with its inputs made explicit: `exe` is the real path of
    the running executable and `body` what the asset download yields.

    A rejection before streaming reports nothing and leaves the filesystem as it
    was (in particular no staging file appears).  Otherwise the staging file is
    created, receives every chunk, and the trace is `ProgressTrace`.  A broken
    stream leaves the partial staging file and the executable in place.  A
    completed one is installed: the backup holds the old binary, the executable
    path the received bytes, the staging file is gone and no other path changed.
   */
  function DownloadUpdate(release: ReleaseResponse, exe: Path, body: Body, fs: Fs): (r: Run)
    ensures ResolveSize(release).Err? ==>
              r == Run([], fs, Failed(ResolveSize(release).error))
    ensures ResolveSize(release).Ok? ==>
              r.progress == ProgressTrace(body.chunks, ResolveSize(release).value)
    ensures r.outcome == Installed <==> ResolveSize(release).Ok? && !body.broken && exe in fs
    ensures r.outcome == Failed(StreamFailed) <==> ResolveSize(release).Ok? && body.broken
    ensures r.outcome == Failed(InstallFailed) <==> ResolveSize(release).Ok? && !body.broken && exe !in fs
    ensures r.outcome == Failed(StreamFailed) ==> r.fs == fs[NewPath(exe) := Received(body.chunks)]
    ensures r.outcome == Installed ==>
              && exe in fs
              && BakPath(exe) in r.fs && r.fs[BakPath(exe)] == fs[exe]
              && exe in r.fs && r.fs[exe] == Received(body.chunks)
              && NewPath(exe) !in r.fs
              && UnchangedExcept(fs, r.fs, {exe, NewPath(exe), BakPath(exe)})
    ensures r.outcome == Failed(InstallFailed) ==>
              r.fs == fs[NewPath(exe) := Received(body.chunks)] - {BakPath(exe)}
  {
    match ResolveSize(release)
    case Err(e) => Run([], fs, Failed(e))
    case Ok(size) =>
      var progress := ProgressTrace(body.chunks, size);
      var staged := fs[NewPath(exe) := Received(body.chunks)];
      if body.broken then Run(progress, staged, Failed(StreamFailed))
      else match Install(staged, exe)
        case Swapped(fs') => Run(progress, fs', Installed)
        case SwapFailed(fs', _) => Run(progress, fs', Failed(InstallFailed))
  }

  /**
    A zero-size first match aborts even when a later asset also matches with a
    usable size.
   */
  lemma ZeroSizeFirstMatchAborts(assets: seq<Asset>, i: int, exe: Path, body: Body, fs: Fs)
    requires IsFirstExe(assets, i) && SizeOf(assets[i]) == 0
    ensures DownloadUpdate(ReleaseFetched(Some(assets)), exe, body, fs) == Run([], fs, Failed(UnknownFileSize))
  {
    var release := ReleaseFetched(Some(assets));
    assert AssetsOf(release) == assets;
    FirstExeUnique(assets, FirstExe(assets).value, i);
  }

  /**
    The reported size is never checked against the bytes received: a release
    announcing 10 bytes whose stream yields 3 installs those 3 bytes, and the
    last report says 3 of 10.
   */
  lemma ReportedSizeNotChecked(exe: Path, fs: Fs)
    requires exe in fs
    ensures var release := ReleaseFetched(Some([Asset(Some(ExeName), Some(10))]));
            var r := DownloadUpdate(release, exe, Body([[1, 2, 3]], false), fs);
            && r.outcome == Installed
            && r.progress[|r.progress| - 1] == Report(3, 10)
            && r.fs[exe] == [1, 2, 3]
  {
    var chunks: seq<Bytes> := [[1, 2, 3]];
    var release := ReleaseFetched(Some([Asset(Some(ExeName), Some(10))]));
    assert FirstExe(AssetsOf(release)) == Some(0);
    assert chunks[..0] == [];
    assert Received(chunks) == [1, 2, 3];
  }

  /**
    A 1,000-byte asset streamed in ten 100-byte chunks gives eleven reports
    (the initial one included), the last one 1000 of 1000, and is installed.
   */
  lemma TenChunkDownload(chunks: seq<Bytes>, exe: Path, fs: Fs)
    requires |chunks| == 10 && forall i :: 0 <= i < |chunks| ==> |chunks[i]| == 100
    requires exe in fs
    ensures var release := ReleaseFetched(Some([Asset(Some(ExeName), Some(1000))]));
            var r := DownloadUpdate(release, exe, Body(chunks, false), fs);
            && r.outcome == Installed
            && |r.progress| == 11
            && r.progress[10] == Report(1000, 1000)
            && r.fs[exe] == Received(chunks)
  {
    var release := ReleaseFetched(Some([Asset(Some(ExeName), Some(1000))]));
    assert FirstExe(AssetsOf(release)) == Some(0);
    NonEmptyAll(chunks);
    ReceivedUniform(chunks, 100);
  }

  /**
    The text raised when no asset matches, as written: the braces are not
    interpolated (the string lacks its `f` prefix), so the text is the same for
    every tag.
   */
  function NoAssetMessageAsWritten(tag: string): string {
    "No matching asset found for version {latest_version}"
  }

  /** The text with the requested tag filled in, as the log line before it does. */
  function NoAssetMessage(tag: string): (m: string)
    ensures |m| >= |tag| && m[|m| - |tag|..] == tag
  {
    "No matching asset found for version " + tag
  }

  /** Different requested tags give different texts. */
  lemma NoAssetMessageNamesTag(t1: string, t2: string)
    requires NoAssetMessage(t1) == NoAssetMessage(t2)
    ensures t1 == t2
  {
    var m := NoAssetMessage(t1);
    assert |t1| == |t2|;
  }

  /**
    The text of the error signal, as the code produces it: the two errors
    raised by `download_update` itself carry fixed texts (the no-asset one
    as written, braces and all); the others carry the text of the underlying
    request or filesystem exception, `cause`, which is not modelled.
   */
  function ErrorText(e: DownloadError, tag: string, cause: string): (m: string)
    ensures e == NoMatchingAsset ==> m == NoAssetMessageAsWritten(tag)
    ensures e == UnknownFileSize ==> m == "Failed to get file size."
    ensures e !in {NoMatchingAsset, UnknownFileSize} ==> m == cause
  {
    match e
    case NoMatchingAsset => NoAssetMessageAsWritten(tag)
    case UnknownFileSize => "Failed to get file size."
    case _ => cause
  }

  /**
   * As written, the two texts `download_update` raises itself never depend on the
   * requested tag (nor on any cause); the other errors carry their cause's text,
   * which the tag can only reach through that cause.
   */
  lemma ErrorTextIgnoresTag(e: DownloadError, t1: string, t2: string, cause1: string, cause2: string)
    ensures e in {NoMatchingAsset, UnknownFileSize} ==> ErrorText(e, t1, cause1) == ErrorText(e, t2, cause2)
    ensures ErrorText(e, t1, cause1) == ErrorText(e, t2, cause1)
  {
  }

  /** The error text as evidently intended: the no-asset text names the requested tag. */
  function IntendedErrorText(e: DownloadError, tag: string, cause: string): (m: string)
    ensures e == NoMatchingAsset ==> |m| >= |tag| && m[|m| - |tag|..] == tag
    ensures e != NoMatchingAsset ==> m == ErrorText(e, tag, cause)
  {
    if e == NoMatchingAsset then NoAssetMessage(tag) else ErrorText(e, tag, cause)
  }

  /** The signals `DownloadThread.run` can emit. */
  datatype Signal = FinishedSignal(success: bool) | ErrorSignal(error: DownloadError, message: string)

  /**
    `DownloadThread.run` for the download of `tag`: `download_update` either
    returns true or raises, so the thread reports success or an error with the
    text `str(e)` of what was raised, and never `finished(False)`.
   */
  function ThreadSignal(r: Run, tag: string, cause: string): (s: Signal)
    ensures s.FinishedSignal? <==> r.outcome == Installed
    ensures s.FinishedSignal? ==> s.success
    ensures s.ErrorSignal? ==> r.outcome == Failed(s.error) && s.message == ErrorText(s.error, tag, cause)
  {
    match r.outcome
    case Installed => FinishedSignal(true)
    case Failed(e) => ErrorSignal(e, ErrorText(e, tag, cause))
  }

  /** The signal loses nothing about the outcome: the dialog can tell every outcome of a download from what it receives. */
  lemma SignalRecoversOutcome(r1: Run, r2: Run, t1: string, t2: string, c1: string, c2: string)
    ensures ThreadSignal(r1, t1, c1) == ThreadSignal(r2, t2, c2) ==> r1.outcome == r2.outcome
    ensures r1.outcome == Installed && r2.outcome == Installed ==> ThreadSignal(r1, t1, c1) == ThreadSignal(r2, t2, c2)
  {
  }
}

=== FILE: filesystem.dfy ===
/**
  The part of the local filesystem the installer touches, as a map from path to
  file contents, and the three-step swap that puts a staged binary in place of
  the running executable.
 */
module FileSystem {

  newtype byte = x: int | 0 <= x < 256

  type Bytes = seq<byte>

  type Path = string

  /** Every regular file that exists, with its contents. */
  type Fs = map<Path, Bytes>

  /** Staging file next to the executable: `<exe>.new`. */
  function NewPath(exe: Path): (p: Path)
    ensures p != exe
  {
    exe + ".new"
  }

  /** Single-generation backup next to the executable: `<exe>.bak`. */
  function BakPath(exe: Path): (p: Path)
    ensures p != exe && p != NewPath(exe)
  {
    var p := exe + ".bak";
    assert p[|exe| + 1] != NewPath(exe)[|exe| + 1];
    p
  }

  /** `fs'` agrees with `fs` on every path outside `touched`: same existence, same contents. */
  ghost predicate UnchangedExcept(fs: Fs, fs': Fs, touched: set<Path>) {
    forall p :: p !in touched ==> (p in fs <==> p in fs') && (p in fs && p in fs' ==> fs[p] == fs'[p])
  }

  /** Outcome of the swap; both variants carry the filesystem as the swap left it. */
  datatype Swap =
    | Swapped(fs: Fs)
    | SwapFailed(fs: Fs, missing: Path)   // a rename found no file at `missing`

  /** `os.remove(path)` guarded by `os.path.exists(path)`. */
  function RemoveIfExists(fs: Fs, path: Path): (fs': Fs)
    ensures path !in fs'
    ensures UnchangedExcept(fs, fs', {path})
  {
    fs - {path}
  }

  /**
    `os.rename(src, dst)`: fails when `src` does not exist; otherwise `src` is gone
    and `dst` holds what `src` held (renaming a file to itself changes nothing).
   */
  function Rename(fs: Fs, src: Path, dst: Path): (r: Swap)
    ensures r.SwapFailed? <==> src !in fs
    ensures r.SwapFailed? ==> r.fs == fs && r.missing == src
    ensures r.Swapped? ==> dst in r.fs && r.fs[dst] == fs[src]
    ensures r.Swapped? && src != dst ==> src !in r.fs
    ensures UnchangedExcept(fs, r.fs, {src, dst})
  {
    if src !in fs then SwapFailed(fs, src)
    else Swapped((fs - {src})[dst := fs[src]])
  }

  /**
    The install step: delete a stale backup, rename the executable to the
    backup, rename the staged file to the executable.  On success the backup
    holds the old binary, the executable path the staged one, the staging file
    is gone and nothing else changed.  The old binary is never lost: whenever
    the executable existed, the backup ends up holding it, even when the
    second rename fails (which leaves the executable path empty).
   */
  function Install(fs: Fs, exe: Path): (r: Swap)
    ensures r.Swapped? <==> exe in fs && NewPath(exe) in fs
    ensures r.Swapped? ==>
              && exe in r.fs && r.fs[exe] == fs[NewPath(exe)]
              && NewPath(exe) !in r.fs
    ensures exe in fs ==> BakPath(exe) in r.fs && r.fs[BakPath(exe)] == fs[exe]
    ensures exe !in fs ==> r == SwapFailed(fs - {BakPath(exe)}, exe)
    ensures r.SwapFailed? && exe in fs ==>
              exe !in r.fs && NewPath(exe) !in r.fs && r.missing == NewPath(exe)
    ensures UnchangedExcept(fs, r.fs, {exe, NewPath(exe), BakPath(exe)})
  {
    var bak := BakPath(exe);
    var fs1 := RemoveIfExists(fs, bak);
    match Rename(fs1, exe, bak)
    case SwapFailed(fs2, missing) => SwapFailed(fs2, missing)
    case Swapped(fs2) => Rename(fs2, NewPath(exe), exe)
  }

  /**
    Installing twice keeps a single generation of backup: after the second
    install the backup holds the binary the first install put in place.
   */
  lemma InstallTwiceKeepsOneBackup(fs: Fs, exe: Path, staged: Bytes)
    requires Install(fs, exe).Swapped?
    ensures var fs2 := Install(fs, exe).fs[NewPath(exe) := staged];
            var r := Install(fs2, exe);
            && r.Swapped?
            && r.fs[BakPath(exe)] == fs[NewPath(exe)]
            && r.fs[exe] == staged
  {
  }
}

=== FILE: labels.dfy ===
/**
  The version selector's entries: every tag equal to the newest one is shown
  with a " (latest)" suffix, and a selected entry is turned back into a tag by
  removing "(latest)" and stripping whitespace.
 */
module Labels {

  const Marker: string := "(latest)"

  /** What is appended to the newest tag: a space, then the marker. */
  const LatestSuffix: string := " " + Marker

  /** Python's `str.isspace` for a single character. */
  predicate IsSpace(c: char) {
    var n := c as int;
    || 0x09 <= n <= 0x0D
    || 0x1C <= n <= 0x20
    || n == 0x85 || n == 0xA0 || n == 0x1680
    || 0x2000 <= n <= 0x200A
    || n == 0x2028 || n == 0x2029 || n == 0x202F || n == 0x205F || n == 0x3000
  }

  /** Every character of `s` from `lo` up to (not including) `hi` is whitespace. */
  ghost predicate AllSpace(s: string, lo: int, hi: int)
    requires 0 <= lo && hi <= |s|
  {
    forall k :: lo <= k < hi ==> IsSpace(s[k])
  }

  /** The marker occurs in `s` starting at position `i`. */
  predicate MarkerAt(s: string, i: int) {
    0 <= i && i + |Marker| <= |s| && s[i..i + |Marker|] == Marker
  }

  predicate ContainsMarker(s: string) {
    exists i :: 0 <= i < |s| && MarkerAt(s, i)
  }

  /** A tag the labelling can be undone for: no marker inside, no whitespace at either end. */
  predicate PlainTag(t: string) {
    && !ContainsMarker(t)
    && (|t| > 0 ==> !IsSpace(t[0]) && !IsSpace(t[|t| - 1]))
  }

  /** `s.replace("(latest)", "")`: occurrences removed left to right, without overlap. */
  function RemoveMarker(s: string): (r: string)
    ensures |r| <= |s|
  {
    if |s| == 0 then ""
    else if MarkerAt(s, 0) then RemoveMarker(s[|Marker|..])
    else
      assert s == [s[0]] + s[1..];
      [s[0]] + RemoveMarker(s[1..])
  }

  /**
    `r` is `s` with some whitespace removed from each end: a slice of `s`
    starting at `a`, with only whitespace before and after it.
   */
  ghost predicate TrimmedAt(s: string, r: string, a: int) {
    && 0 <= a && a + |r| <= |s|
    && r == s[a..a + |r|]
    && AllSpace(s, 0, a)
    && AllSpace(s, a + |r|, |s|)
  }

  /** Trimming what a trim left is again a trim of the original, at the summed offset `c`. */
  lemma TrimmedAtTrans(s: string, l: string, r: string, a: int, b: int, c: int)
    requires TrimmedAt(s, l, a) && TrimmedAt(l, r, b) && c == a + b
    ensures TrimmedAt(s, r, c)
  {
    forall j | 0 <= j < |r|
      ensures r[j] == s[c + j]
    {
      assert r[j] == l[b + j];
    }
    assert r == s[c..c + |r|];
    forall k | 0 <= k < c
      ensures IsSpace(s[k])
    {
      if k >= a {
        assert s[k] == l[k - a];
      }
    }
    forall k | c + |r| <= k < |s|
      ensures IsSpace(s[k])
    {
      if k < a + |l| {
        assert s[k] == l[k - a];
      }
    }
  }

  /** `s.lstrip()`: a whitespace prefix is removed, and none remains. */
  function StripLeft(s: string): (r: string)
    ensures |r| <= |s| && TrimmedAt(s, r, |s| - |r|)
    ensures |r| > 0 ==> !IsSpace(r[0])
  {
    if |s| > 0 && IsSpace(s[0]) then
      var t := s[1..];
      var r := StripLeft(t);
      assert TrimmedAt(s, t, 1);
      TrimmedAtTrans(s, t, r, 1, |t| - |r|, |s| - |r|);
      r
    else
      assert TrimmedAt(s, s, |s| - |s|);
      s
  }

  /** `s.rstrip()`: a whitespace suffix is removed, and none remains. */
  function StripRight(s: string): (r: string)
    ensures |r| <= |s| && TrimmedAt(s, r, 0)
    ensures |r| > 0 ==> r[0] == s[0] && !IsSpace(r[|r| - 1])
  {
    if |s| > 0 && IsSpace(s[|s| - 1]) then
      var t := s[..|s| - 1];
      var r := StripRight(t);
      assert TrimmedAt(s, t, 0);
      TrimmedAtTrans(s, t, r, 0, 0, 0);
      r
    else
      assert TrimmedAt(s, s, 0);
      s
  }

  /** A left trim followed by a right trim is a trim leaving no whitespace at either end. */
  lemma TrimBothEnds(s: string, l: string, r: string)
    requires TrimmedAt(s, l, |s| - |l|) && (|l| > 0 ==> !IsSpace(l[0]))
    requires |r| <= |l| && TrimmedAt(l, r, 0) && (|r| > 0 ==> r[0] == l[0] && !IsSpace(r[|r| - 1]))
    ensures TrimmedAt(s, r, |s| - |l|)
    ensures |r| > 0 ==> !IsSpace(r[0]) && !IsSpace(r[|r| - 1])
  {
    TrimmedAtTrans(s, l, r, |s| - |l|, 0, |s| - |l|);
  }

  /** `s.strip()`: only whitespace is removed, from both ends, and none remains at either end. */
  function Strip(s: string): (r: string)
    ensures TrimmedAt(s, r, |s| - |StripLeft(s)|)
    ensures |r| > 0 ==> !IsSpace(r[0]) && !IsSpace(r[|r| - 1])
  {
    TrimBothEnds(s, StripLeft(s), StripRight(StripLeft(s)));
    StripRight(StripLeft(s))
  }

  /**
    The tag a selector entry stands for, as the dialog computes it: the entry
    with every marker removed, then trimmed of surrounding whitespace only.
   */
  function SelectedVersion(text: string): (v: string)
    ensures exists a :: TrimmedAt(RemoveMarker(text), v, a)
    ensures |v| > 0 ==> !IsSpace(v[0]) && !IsSpace(v[|v| - 1])
  {
    var u := RemoveMarker(text);
    var v := Strip(u);
    assert TrimmedAt(u, v, |u| - |StripLeft(u)|);
    v
  }

  /** The entry shown for `versions[i]`. */
  function Label(versions: seq<string>, i: int): string
    requires 0 <= i < |versions|
  {
    if versions[i] == versions[0] then versions[i] + LatestSuffix else versions[i]
  }

  /**
    The selector entries for the release list, in release order: tags equal to
    the first get the suffix, the others are shown verbatim, and every plain
    tag is recovered from its entry by `SelectedVersion`.
   */
  function LabelVersions(versions: seq<string>): (r: seq<string>)
    ensures |r| == |versions|
    ensures forall i :: 0 <= i < |r| && versions[i] == versions[0] ==> r[i] == versions[i] + LatestSuffix
    ensures forall i :: 0 <= i < |r| && versions[i] != versions[0] ==> r[i] == versions[i]
    ensures forall i :: 0 <= i < |r| && PlainTag(versions[i]) ==> SelectedVersion(r[i]) == versions[i]
  {
    var r := seq(|versions|, i requires 0 <= i < |versions| => Label(versions, i));
    LabelsRoundTrip(versions, r);
    r
  }

  /** Every plain tag is recovered from its entry. */
  lemma LabelsRoundTrip(versions: seq<string>, r: seq<string>)
    requires |r| == |versions| && forall i :: 0 <= i < |r| ==> r[i] == Label(versions, i)
    ensures forall i :: 0 <= i < |r| && PlainTag(versions[i]) ==> SelectedVersion(r[i]) == versions[i]
  {
    forall i | 0 <= i < |r| && PlainTag(versions[i])
      ensures SelectedVersion(r[i]) == versions[i]
    {
      SelectedVersionOfLabel(versions[i], versions[i] == versions[0]);
    }
  }

  /** A tag without the marker has a tail without the marker. */
  lemma NoMarkerInTail(t: string)
    requires |t| > 0 && !ContainsMarker(t)
    ensures !ContainsMarker(t[1..])
  {
    if ContainsMarker(t[1..]) {
      var i :| 0 <= i < |t[1..]| && MarkerAt(t[1..], i);
      assert t[1..][i..i + |Marker|] == t[i + 1..i + 1 + |Marker|];
      assert MarkerAt(t, i + 1);
    }
  }

  /** Removing the marker from a tag that does not contain it changes nothing. */
  lemma {:induction false} RemoveMarkerAbsent(t: string)
    requires !ContainsMarker(t)
    ensures RemoveMarker(t) == t
  {
    if |t| > 0 {
      assert !MarkerAt(t, 0);
      NoMarkerInTail(t);
      RemoveMarkerAbsent(t[1..]);
      assert t == [t[0]] + t[1..];
    }
  }

  /**
    The marker is never found straddling its own start: no proper suffix of
    "(latest)" is a prefix of it, since "(" occurs only at its head.
   */
  lemma NoMarkerStraddle(a: string, b: string)
    requires |a| > 0 && !ContainsMarker(a)
    ensures !MarkerAt(a + Marker + b, 0)
  {
    var s := a + Marker + b;
    if |a| >= |Marker| {
      assert s[..|Marker|] == a[..|Marker|];
      assert !MarkerAt(a, 0);
    } else {
      assert s[|a|] == Marker[0] == '(';
      assert Marker[|a|] != '(';
    }
  }

  /** The marker at the head is dropped and removal goes on after it. */
  lemma RemoveMarkerHead(b: string)
    ensures RemoveMarker(Marker + b) == RemoveMarker(b)
  {
    var s := Marker + b;
    assert s[..|Marker|] == Marker;
    assert s[|Marker|..] == b;
  }

  /** A prefix whose first character starts no marker passes that character through. */
  lemma RemoveMarkerKeepsHead(a: string, y: string, rest: string)
    requires |a| > 0 && !MarkerAt(a + y, 0)
    requires RemoveMarker(a[1..] + y) == a[1..] + rest
    ensures RemoveMarker(a + y) == a + rest
  {
    var s := a + y;
    assert s[1..] == a[1..] + y;
    assert [a[0]] + (a[1..] + rest) == a + rest;
  }

  /**
    Removing the marker from `a + Marker + b`, where `a` holds none, keeps `a`,
    drops that occurrence and goes on with `b`: every occurrence is removed,
    not only the first.
   */
  lemma {:induction false} RemoveMarkerAfter(a: string, b: string)
    requires !ContainsMarker(a)
    ensures RemoveMarker(a + Marker + b) == a + RemoveMarker(b)
  {
    if |a| == 0 {
      assert a + Marker + b == Marker + b;
      RemoveMarkerHead(b);
    } else {
      NoMarkerInTail(a);
      RemoveMarkerAfter(a[1..], b);
      NoMarkerStraddle(a, b);
      assert a + Marker + b == a + (Marker + b);
      assert a[1..] + Marker + b == a[1..] + (Marker + b);
      RemoveMarkerKeepsHead(a, Marker + b, RemoveMarker(b));
    }
  }

  /** A labelled tag does not start with the marker unless the tag itself does. */
  lemma NoMarkerBeforeSuffix(t: string)
    requires |t| > 0 && !MarkerAt(t, 0)
    ensures !MarkerAt(t + LatestSuffix, 0)
  {
    var s := t + LatestSuffix;
    if |t| >= |Marker| {
      assert s[..|Marker|] == t[..|Marker|];
    } else {
      assert s[|t|] == ' ';
      assert Marker[|t|] != ' ';
    }
  }

  /** The suffix alone loses its marker and keeps the space. */
  lemma RemoveMarkerOfSuffix()
    ensures RemoveMarker(LatestSuffix) == " "
  {
    var s := LatestSuffix;
    assert !MarkerAt(s, 0) by { assert s[0] == ' ' != Marker[0]; }
    assert s[1..] == Marker;
    assert MarkerAt(Marker, 0);
    assert Marker[|Marker|..] == "";
  }

  /** Removing the marker from a labelled tag leaves the tag and the separating space. */
  lemma {:induction false} RemoveMarkerSuffix(t: string)
    requires !ContainsMarker(t)
    ensures RemoveMarker(t + LatestSuffix) == t + " "
  {
    if |t| == 0 {
      assert t + LatestSuffix == LatestSuffix;
      RemoveMarkerOfSuffix();
    } else {
      var s := t + LatestSuffix;
      NoMarkerBeforeSuffix(t);
      NoMarkerInTail(t);
      RemoveMarkerSuffix(t[1..]);
      assert s[1..] == t[1..] + LatestSuffix;
      assert RemoveMarker(s) == [t[0]] + RemoveMarker(s[1..]);
      assert [t[0]] + (t[1..] + " ") == t + " ";
    }
  }

  /** Stripping a tag without surrounding whitespace, followed by one space, gives the tag. */
  lemma StripTrailingSpace(t: string)
    requires |t| > 0 ==> !IsSpace(t[0]) && !IsSpace(t[|t| - 1])
    ensures Strip(t + " ") == t
    ensures Strip(t) == t
  {
    var s := t + " ";
    if |t| == 0 {
      assert StripLeft(s) == StripLeft(s[1..]);
      assert s[1..] == "";
    } else {
      assert StripLeft(s) == s;
      assert s[..|s| - 1] == t;
      assert StripRight(s) == StripRight(t);
      assert StripLeft(t) == t;
    }
  }

  /**
    Round trip of the labelling: the tag shown with or without the suffix is
    recovered by `SelectedVersion`.
   */
  lemma SelectedVersionOfLabel(t: string, latest: bool)
    requires PlainTag(t)
    ensures SelectedVersion(if latest then t + LatestSuffix else t) == t
  {
    StripTrailingSpace(t);
    if latest {
      RemoveMarkerSuffix(t);
    } else {
      RemoveMarkerAbsent(t);
    }
  }
}

=== FILE: optional.dfy ===
/** Small failure-carrying datatypes shared by the other modules. */
module Optional {

  /** A value that may be absent, like a missing key in a JSON object. */
  datatype Option<+T> = None | Some(value: T) {

    /** The carried value, or `default` when absent (Python's `dict.get(key, default)`). */
    function GetOr(default: T): (r: T)
      ensures Some? ==> r == value
      ensures None? ==> r == default
    {
      match this
      case Some(v) => v
      case None => default
    }
  }

  /** Either a computed value or the error that stopped the computation. */
  datatype Result<+T, +E> = Ok(value: T) | Err(error: E)
}

=== FILE: progress.dfy ===
/**
  Streaming the asset body: the bytes written to the staging file and the
  progress reports sent to the callback.
 */
module Progress {
  import opened FileSystem

  /** One call of the progress callback: bytes received so far and the reported size. */
  datatype Report = Report(downloaded: int, total: int)

  /** All bytes of the stream, in order (what ends up in the staging file). */
  function Received(chunks: seq<Bytes>): Bytes {
    if |chunks| == 0 then [] else Received(chunks[..|chunks| - 1]) + chunks[|chunks| - 1]
  }

  /** Number of non-empty chunks: one progress report is made for each. */
  function NonEmpty(chunks: seq<Bytes>): nat {
    if |chunks| == 0 then 0
    else NonEmpty(chunks[..|chunks| - 1]) + (if |chunks[|chunks| - 1]| > 0 then 1 else 0)
  }

  /** Downloaded counts strictly increase along the trace. */
  ghost predicate StrictlyIncreasing(trace: seq<Report>) {
    forall i, j :: 0 <= i < j < |trace| ==> trace[i].downloaded < trace[j].downloaded
  }

  /** Every report carries the same total. */
  ghost predicate ConstantTotal(trace: seq<Report>, total: int) {
    forall i :: 0 <= i < |trace| ==> trace[i].total == total
  }

  /** `rep` carries the running byte count right after some non-empty chunk. */
  ghost predicate IsRunningSum(chunks: seq<Bytes>, rep: Report) {
    exists k :: 0 < k <= |chunks| && |chunks[k - 1]| > 0 && rep.downloaded == |Received(chunks[..k])|
  }

  /**
    The reports made while reading `chunks`: empty chunks are skipped, and each
    non-empty chunk yields the running sum of chunk lengths.
   */
  function Reports(chunks: seq<Bytes>, total: int): (r: seq<Report>)
    ensures |r| == NonEmpty(chunks)
    ensures ConstantTotal(r, total)
    ensures StrictlyIncreasing(r)
    ensures forall i :: 0 <= i < |r| ==> 0 < r[i].downloaded <= |Received(chunks)|
    ensures forall i :: 0 <= i < |r| ==> IsRunningSum(chunks, r[i])
    ensures |r| > 0 ==> r[|r| - 1].downloaded == |Received(chunks)|
    ensures |r| == 0 <==> |Received(chunks)| == 0
  {
    if |chunks| == 0 then []
    else
      var init := chunks[..|chunks| - 1];
      var last := chunks[|chunks| - 1];
      var prev := Reports(init, total);
      RunningSumsExtend(init, chunks, prev);
      if |last| == 0 then prev
      else
        var x := Report(|Received(chunks)|, total);
        assert chunks[..|chunks|] == chunks;
        assert IsRunningSum(chunks, x);
        AppendReport(prev, x, total, |Received(init)|);
        prev + [x]
  }

  /** A report above every earlier count extends a trace of one total. */
  lemma AppendReport(prev: seq<Report>, x: Report, total: int, m: int)
    requires ConstantTotal(prev, total) && StrictlyIncreasing(prev) && x.total == total
    requires forall i :: 0 <= i < |prev| ==> 0 < prev[i].downloaded <= m
    requires m < x.downloaded
    ensures ConstantTotal(prev + [x], total) && StrictlyIncreasing(prev + [x])
    ensures forall i :: 0 <= i < |prev| ==> (prev + [x])[i] == prev[i]
    ensures (prev + [x])[|prev|] == x
  {
  }

  /** A running count of a prefix of the chunks is a running count of all of them. */
  lemma RunningSumsExtend(init: seq<Bytes>, chunks: seq<Bytes>, reps: seq<Report>)
    requires |init| <= |chunks| && init == chunks[..|init|]
    requires forall i :: 0 <= i < |reps| ==> IsRunningSum(init, reps[i])
    ensures forall i :: 0 <= i < |reps| ==> IsRunningSum(chunks, reps[i])
  {
    forall i | 0 <= i < |reps|
      ensures IsRunningSum(chunks, reps[i])
    {
      var k :| 0 < k <= |init| && |init[k - 1]| > 0 && reps[i].downloaded == |Received(init[..k])|;
      assert init[..k] == chunks[..k];
    }
  }

  /** A report below every later count starts a trace of one total. */
  lemma PrependReport(x: Report, reps: seq<Report>, total: int)
    requires ConstantTotal(reps, total) && StrictlyIncreasing(reps) && x.total == total
    requires forall i :: 0 <= i < |reps| ==> x.downloaded < reps[i].downloaded
    ensures ConstantTotal([x] + reps, total) && StrictlyIncreasing([x] + reps)
    ensures forall i :: 1 <= i < 1 + |reps| ==> ([x] + reps)[i] == reps[i - 1]
  {
  }

  /**
    The whole trace of `download_update` once the asset is chosen: a first
    report of zero bytes, then one report per non-empty chunk.  The last count is
    the number of bytes received, which need not equal the reported size.
   */
  function ProgressTrace(chunks: seq<Bytes>, size: int): (r: seq<Report>)
    ensures |r| == 1 + NonEmpty(chunks)
    ensures r[0] == Report(0, size)
    ensures ConstantTotal(r, size)
    ensures StrictlyIncreasing(r)
    ensures r[|r| - 1].downloaded == |Received(chunks)|
    ensures forall i :: 1 <= i < |r| ==> IsRunningSum(chunks, r[i])
  {
    var reps := Reports(chunks, size);
    PrependReport(Report(0, size), reps, size);
    [Report(0, size)] + reps
  }

  /**
    The loop of `download_update` as written: write each non-empty chunk,
    add its length to the running count and report.  It produces exactly the
    trace and file contents described by `ProgressTrace` and `Received`.
   */
  method StreamBody(chunks: seq<Bytes>, size: int) returns (trace: seq<Report>, written: Bytes)
    ensures trace == ProgressTrace(chunks, size)
    ensures written == Received(chunks)
  {
    trace := [Report(0, size)];
    written := [];
    var downloaded := 0;
    for i := 0 to |chunks|
      invariant written == Received(chunks[..i])
      invariant downloaded == |written|
      invariant trace == [Report(0, size)] + Reports(chunks[..i], size)
    {
      var chunk := chunks[i];
      assert chunks[..i + 1][..i] == chunks[..i];
      if |chunk| > 0 {
        written := written + chunk;
        downloaded := downloaded + |chunk|;
        trace := trace + [Report(downloaded, size)];
      }
    }
    assert chunks[..|chunks|] == chunks;
  }

  /** When no chunk is empty there is one report per chunk, plus the initial one. */
  lemma {:induction false} NonEmptyAll(chunks: seq<Bytes>)
    requires forall i :: 0 <= i < |chunks| ==> |chunks[i]| > 0
    ensures NonEmpty(chunks) == |chunks|
  {
    if |chunks| > 0 {
      NonEmptyAll(chunks[..|chunks| - 1]);
    }
  }

  /** Chunks of a common length `n` deliver `n` bytes each. */
  lemma {:induction false} ReceivedUniform(chunks: seq<Bytes>, n: nat)
    requires forall i :: 0 <= i < |chunks| ==> |chunks[i]| == n
    ensures |Received(chunks)| == n * |chunks|
  {
    if |chunks| > 0 {
      var k := |chunks| - 1;
      ReceivedUniform(chunks[..k], n);
      assert n * k + n == n * |chunks|;
    }
  }
}

=== FILE: versions.dfy ===
/**
  The update check: fetch the tag of the latest release and keep it only when it
  orders strictly above the running build.

  Version parsing and ordering belong to a foreign library, so they are
  parameters here: `parse` maps a tag to its comparison key (or `None` when the
  tag is not a valid version) and `lt` is the strict order on keys.
 */
module Versions {
  import opened Optional

  /** Tag assumed when the latest-release record carries no `tag_name`. */
  const DefaultTag: string := "0.0.0"

  /** No key is below itself. */
  ghost predicate Irreflexive<K(!new)>(lt: (K, K) -> bool) {
    forall k :: !lt(k, k)
  }

  /** The order the version library provides on parsed versions. */
  ghost predicate StrictTotalOrder<K(!new)>(lt: (K, K) -> bool) {
    && Irreflexive(lt)
    && (forall a, b, c :: lt(a, b) && lt(b, c) ==> lt(a, c))
    && (forall a, b :: a != b ==> lt(a, b) || lt(b, a))
  }

  /** What the request for the latest release produced. */
  datatype LatestResponse =
    | RequestFailed                      // transport error or an error HTTP status
    | Fetched(tagName: Option<string>)   // the decoded release record's `tag_name`, if present

  /** The tag the check compares: the record's tag, or the default when it has none. */
  function FetchedTag(resp: LatestResponse): (t: string)
    requires resp.Fetched?
    ensures resp.tagName.None? ==> t == DefaultTag
    ensures resp.tagName.Some? ==> t == resp.tagName.value
  {
    resp.tagName.GetOr(DefaultTag)
  }

  /** `tag` parses, `current` parses, and `tag` orders strictly above `current`. */
  predicate Newer<K>(parse: string -> Option<K>, lt: (K, K) -> bool, tag: string, current: string) {
    parse(tag).Some? && parse(current).Some? && lt(parse(current).value, parse(tag).value)
  }

  /**
    `check_for_updates`: the fetched tag when it is newer than the running build,
    otherwise (not newer, a request failure or an unparsable version) the running build.
   */
  function CheckForUpdates<K>(resp: LatestResponse, current: string,
                              parse: string -> Option<K>, lt: (K, K) -> bool): (r: string)
    ensures resp.Fetched? && Newer(parse, lt, FetchedTag(resp), current) ==> r == FetchedTag(resp)
    ensures !(resp.Fetched? && Newer(parse, lt, FetchedTag(resp), current)) ==> r == current
    ensures resp.RequestFailed? ==> r == current
  {
    match resp
    case RequestFailed => current
    case Fetched(_) =>
      var latest := FetchedTag(resp);
      match (parse(latest), parse(current))
      case (Some(l), Some(c)) => if lt(c, l) then latest else current
      case _ => current
  }

  /**
    `UpdateCheckThread.run`: an update is available when the check returned
    something other than the running build, which is exactly when the latest
    tag is newer.
   */
  function UpdateAvailable<K(!new)>(resp: LatestResponse, current: string,
                                    parse: string -> Option<K>, lt: (K, K) -> bool): (available: bool)
    requires Irreflexive(lt)
    ensures available <==> resp.Fetched? && Newer(parse, lt, FetchedTag(resp), current)
  {
    CheckForUpdates(resp, current, parse, lt) != current
  }

  /**
    Under a strict total order the check never moves to an older build: when the
    running build parses, the result parses too and is not below it.
   */
  lemma CheckNeverDowngrades<K(!new)>(resp: LatestResponse, current: string,
                                      parse: string -> Option<K>, lt: (K, K) -> bool)
    requires StrictTotalOrder(lt)
    requires parse(current).Some?
    ensures var r := CheckForUpdates(resp, current, parse, lt);
            parse(r).Some? && !lt(parse(r).value, parse(current).value)
  {
    var r := CheckForUpdates(resp, current, parse, lt);
    var c := parse(current).value;
    if r != current {
      var l := parse(r).value;
      assert lt(c, l);
    }
  }
}
